=== FILE: README.md ===
# Friend graph, rating-notification coalescing and inspect validation

A Dafny model of the decision logic of the mr-backend Go service.

- **Friend-relationship state machine.** Each user record holds three arrays of user ids: `friends`, `friendRequests` (incoming) and `outgoingRequests`. There are five transitions: send, accept, decline, remove and revoke. Each one runs over a pair of records `(userId, friendId)`. The `Users` collection is modelled as `map<string, Doc>`. A `Doc` either decodes into a `User` or does not. Firestore's `ArrayUnion` appends a value when it is absent, and `ArrayRemove` deletes every occurrence. Each `Update` is atomic for its one document and applies to the *current* store. So when `userId == friendId`, both writes land on the same record, one after the other. A `Faults` value says whether the first and the second `Update` of a transition fail. This exposes the half-applied state left behind by a 500 after one write has succeeded. Notifications and topic subscriptions are returned as a list of effects.
- **Rating-notification coalescing.** `handleRatingEvent` keeps a per-user map of the last rating event, which is nil until first used, plus the timers it has armed. The model uses an integer clock in seconds with a window of 300. A timer firing is an explicit step. It receives the rater's profile and the cached title as inputs.
- **`ArrayContains`**: the membership test used by every guard.
- **Inspect endpoint.** This covers movie-id and country validation (with the `"de"` default), the cache-hit decision, the fallback to the external search, and the filter that keeps only the requested country's streaming options, comparing keys with ASCII upper-casing.

Modules: `Helpers` (helpers.dfy), `Notify` (notify.dfy), `Users` (users.dfy), `Friends` (friends.dfy), `FriendLaws` (friend_laws.dfy), `Ratings` (ratings.dfy), `Coalescing` (coalescing.dfy), `Inspect` (inspect.dfy).

Two invariants of the friend graph are stated in `FriendLaws`:

- `Mirrored`: B is in A's outgoing requests exactly when A is in B's incoming requests, and friendship is symmetric.
- `Exclusive`: a counterpart other than oneself sits in at most one of a record's three arrays.

Every transition preserves both invariants when none of its writes fails.

Points where the code does something its names do not suggest; the model follows the code:

- `sendFriendRequest` accepts the pending request instead of creating a new one when `friendId` is already in the user's `friendRequests`. It then answers 210 "Ok".
- Its first guard checks whether `friendId` appears in the friend's own `friendRequests`, that is, whether the friend holds a request from itself. Send does not reject `userId == friendId`, so such an entry can exist. From then on, every request to that user gets 400 "friend already added". `FriendLaws.SelfRequestBlocksSend` states this.
- When there is no request, accept still issues a removal of the absent id. That write changes nothing, but its failure turns the 400 into a 500.
- The "accepted" notification goes to the friend's token, and its link names `friendRef.ID`, which is the friend's own id.
- The code calls `SendNotification` with a link argument that its two-parameter declaration does not take. The model keeps the link inside the message.
- `User` in Types.go has no `FcmToken`, but the handler reads one. The model's `User` carries it.

## Model

| member | source | states |
|---|---|---|
| Helpers.ArrayContains | main/Handlers/Helpers.go:10-17 | true iff some index holds the value, so false on an empty or nil array |
| Helpers.ScanFor | main/Handlers/Helpers.go:10-17 | the range loop returns on the first match: it agrees with `ArrayContains`, and a found index is the first one holding the value |
| Helpers.ContainsExtends | main/Handlers/Helpers.go:11-14 | `a + [v]` contains `v`, and a match in a prefix survives any extension |
| Notify.SubscribeToUser | main/Handlers/FirebaseHandlers/FcmHandler.go:53-64 | no effect exactly when the token is empty; otherwise the one subscription of that token to that topic |
| Notify.UnsubscribeFromUser | main/Handlers/FirebaseHandlers/FcmHandler.go:66-77 | no effect exactly when the token is empty; otherwise the one unsubscription |
| Notify.SendNotification | main/Handlers/FirebaseHandlers/FcmHandler.go:79-94 | no effect exactly when the token is empty; otherwise one push of that message to that token |
| Users.Union | main/Handlers/FirebaseHandlers/FriendHandler.go:98-99 | `ArrayUnion`: afterwards the members are the old ones plus the value, and an already present value leaves the array as it was |
| Users.Remove | main/Handlers/FirebaseHandlers/FriendHandler.go:100 | `ArrayRemove`: afterwards the members are the old ones minus the value, and an absent value leaves the array as it was |
| Users.RemoveCounts | main/Handlers/FirebaseHandlers/FriendHandler.go:100 | `ArrayRemove` deletes every copy of the value and keeps the multiplicity of every other element |
| Users.Apply | main/Handlers/FirebaseHandlers/FriendHandler.go:98-101 | one transform changes membership of its own field and value only, as its set meaning `Member` says, and no other field |
| Users.ApplyAll | main/Handlers/FirebaseHandlers/FriendHandler.go:98-101 | the transforms of one update act in order, as the fold of their set meanings, and fields no transform names are unchanged |
| Users.Update | main/Handlers/FirebaseHandlers/FriendHandler.go:98-105 | a single-document update touches only that record, keeps every record live, changes nothing when it fails, and otherwise changes that record's memberships exactly as its transforms say |
| Friends.GetAndParse | main/Handlers/FirebaseHandlers/FriendHandler.go:26-50 | 404 "user doesn't exist" first, then 404 "friend doesn't exist", an empty id counting as missing, then 500 for an undecodable record; success exactly when both ids are non-empty and both records are live, returning both |
| Friends.Send | main/Handlers/FirebaseHandlers/FriendHandler.go:52-82 | lookup failures pass through with no writes; the two 400 guards in order leave the store unchanged; a crossing request yields accept's store and effects, with 200 turned into 210; on a fresh pair a failed first write gives 500 with nothing changed; only the two records are written |
| Friends.Accept | main/Handlers/FirebaseHandlers/FriendHandler.go:84-119 | without a request: 400 "no friend request" (500 if that removal write fails) and the store unchanged; with one: 500 on the first failing write, else 200; a failed second write returns before any subscription or notification; only the two records are written |
| Friends.Decline | main/Handlers/FirebaseHandlers/FriendHandler.go:121-140 | needs the request on both records, else 400 "no friend request" unchanged; 500 with nothing changed when the first write fails; never notifies; only the two records are written |
| Friends.RemoveFriend | main/Handlers/FirebaseHandlers/FriendHandler.go:142-163 | 400 "Not friends with user" unchanged unless friendId is a friend; 500 on a failing write, with nothing changed if it is the first, and no unsubscription when the second fails; only the two records are written |
| Friends.Revoke | main/Handlers/FirebaseHandlers/FriendHandler.go:165-184 | 400 "no friend request sent to this user" unchanged unless a request was sent; 500 with nothing changed when the first write fails; never notifies; only the two records are written |
| FriendLaws.SendCreatesRequest | main/Handlers/FirebaseHandlers/FriendHandler.go:70-81 | a fresh send returns 200, adds exactly userId to the friend's incoming and friendId to the user's outgoing requests, keeps both Friends arrays identical and notifies the friend |
| FriendLaws.SendHalfApplied | main/Handlers/FirebaseHandlers/FriendHandler.go:70-80 | when the second write fails: 500, the friend already holds the incoming request and has been notified, and the user's outgoing entry is missing |
| FriendLaws.AcceptHalfApplied | main/Handlers/FirebaseHandlers/FriendHandler.go:98-113 | when the friend write fails: 500, no subscription or notification, the user's record already lists the friend and no longer holds the request, and the friend's record is untouched |
| FriendLaws.DeclineHalfApplied | main/Handlers/FirebaseHandlers/FriendHandler.go:129-137 | when the friend write fails: 500, the user's incoming request is gone and the friend's record, outgoing entry included, is untouched |
| FriendLaws.RemoveHalfApplied | main/Handlers/FirebaseHandlers/FriendHandler.go:150-158 | when the friend write fails: 500, no unsubscription, the user no longer lists the friend and the friend's record still lists the user |
| FriendLaws.RevokeHalfApplied | main/Handlers/FirebaseHandlers/FriendHandler.go:173-181 | when the user write fails: 500, the friend no longer holds the request and the user's record still lists it as outgoing |
| FriendLaws.AcceptMakesFriends | main/Handlers/FirebaseHandlers/FriendHandler.go:98-118 | friendId moves from the user's incoming requests to its friends and userId from the friend's outgoing requests to its friends; nothing else changes; both subscribe and the friend is notified |
| FriendLaws.SendAutoAccepts | main/Handlers/FirebaseHandlers/FriendHandler.go:63-69 | a crossing send returns 210, makes both friends, and adds no new pending entry |
| FriendLaws.DeclineClearsRequest | main/Handlers/FirebaseHandlers/FriendHandler.go:126-139 | a successful decline removes exactly the two mirrored pending entries |
| FriendLaws.RevokeClearsRequest | main/Handlers/FirebaseHandlers/FriendHandler.go:170-183 | a successful revoke removes exactly the two mirrored pending entries |
| FriendLaws.RemoveEndsFriendship | main/Handlers/FirebaseHandlers/FriendHandler.go:147-162 | a successful remove takes each id out of the other's Friends only and unsubscribes both |
| FriendLaws.SendKeepsConsistent | main/Handlers/FirebaseHandlers/FriendHandler.go:57-81 | with no failing write, send preserves the mirrored and exclusive invariants |
| FriendLaws.AcceptKeepsConsistent | main/Handlers/FirebaseHandlers/FriendHandler.go:89-113 | with no failing write, accept preserves both invariants |
| FriendLaws.DeclineKeepsConsistent | main/Handlers/FirebaseHandlers/FriendHandler.go:126-139 | with no failing write, decline preserves both invariants |
| FriendLaws.RevokeKeepsConsistent | main/Handlers/FirebaseHandlers/FriendHandler.go:170-183 | with no failing write, revoke preserves both invariants |
| FriendLaws.RemoveKeepsConsistent | main/Handlers/FirebaseHandlers/FriendHandler.go:147-159 | with no failing write, remove preserves both invariants |
| FriendLaws.AcceptTwiceFails | main/Handlers/FirebaseHandlers/FriendHandler.go:89-113 | after a 200 accept, accepting the same pair again yields 400 "no friend request" and changes nothing |
| FriendLaws.RemoveTwiceFails | main/Handlers/FirebaseHandlers/FriendHandler.go:147-159 | after a 200 remove, removing again yields 400 "Not friends with user" and changes nothing |
| FriendLaws.MutualRequestsBecomeFriends | main/Handlers/FirebaseHandlers/FriendHandler.go:57-81 | A sends to B, then B sends to A: 200 then 210, both end up friends and no pending entry is left between them |
| FriendLaws.SelfRequestBlocksSend | main/Handlers/FirebaseHandlers/FriendHandler.go:57-58 | after a self-request is accepted by send, any other user's request to that user gets 400 "friend already added" |
| FriendLaws.HalfAppliedSendBreaksMirror | main/Handlers/FirebaseHandlers/FriendHandler.go:70-80 | a concrete mirrored store, a failing second write: 500 and the store is no longer mirrored |
| Ratings.NewEvent | main/Handlers/FirebaseHandlers/FcmHandler.go:205-209 | the endpoint creates events with `Multiple` false, for the caller, the movie and the current time |
| Ratings.Handle | main/Handlers/FirebaseHandlers/FcmHandler.go:134-152 | the map is initialised; inside the window the map and the timers are unchanged; otherwise the rater's entry becomes the event, other entries stay, and exactly one timer is appended, for now + 300 with the event as snapshot |
| Ratings.TitleFor | main/Handlers/FirebaseHandlers/FcmHandler.go:105-110 | the cached title when it is non-empty, otherwise the movie id |
| Ratings.SendToFriends | main/Handlers/FirebaseHandlers/FcmHandler.go:96-120 | nothing exactly when the friends array is nil; otherwise one message on the rater's topic, with the "and more" text iff the event is flagged multiple |
| Ratings.Fire | main/Handlers/FirebaseHandlers/FcmHandler.go:152-165 | runs only once its timer is due (at or after `fireAt`); the timer is spent; if the stored entry equals the snapshot, the notification for the snapshot is sent and the key deleted; otherwise nothing is sent and the map is unchanged |
| Ratings.IdleIsGood | main/Handlers/FirebaseHandlers/FcmHandler.go:137-139 | the initial state (nil map, no timers) satisfies the scheduler invariants |
| Ratings.HandleKeepsGood | main/Handlers/FirebaseHandlers/FcmHandler.go:141-152 | handling an unflagged event keeps entries keyed by their rater, unflagged, and each backed by a pending timer |
| Ratings.FireKeepsGood | main/Handlers/FirebaseHandlers/FcmHandler.go:152-165 | firing any due timer keeps the invariants: every stored entry stays under its rater, unflagged, and backed by a pending timer whose snapshot it is |
| Ratings.NeverAndMore | main/Handlers/FirebaseHandlers/FcmHandler.go:142-146 | as written, no fired timer ever sends the "and more" text |
| Ratings.NilMapIsEmpty | main/Handlers/FirebaseHandlers/FcmHandler.go:137-139 | handling with a nil map is exactly handling with an empty map |
| Ratings.FarApartTwoNotifications | main/Handlers/FirebaseHandlers/FcmHandler.go:142-165 | an event handled after the previous window's timer has fired opens its own window: two windows send two notifications, each for its own event, each no earlier than its handling time + 300 |
| Ratings.BoundaryDrop | main/Handlers/FirebaseHandlers/FcmHandler.go:142-158 | the window runs from the request time and the timer from the handling time: a late-handled event is replaced by the next one once that one is a window past the first request, before the first timer is due, and the first window is then never announced |
| Ratings.FireSendsOnce | main/Handlers/FirebaseHandlers/FcmHandler.go:157-164 | after a timer has sent and deleted its entry, another timer with the same snapshot sends nothing |
| Coalescing.HandleMarked | main/Handlers/FirebaseHandlers/FcmHandler.go:142-147 | inside the window the stored entry gets the flag and nothing else changes; outside it behaves as `Handle` |
| Coalescing.FireMarked | main/Handlers/FirebaseHandlers/FcmHandler.go:152-165 | the window is matched by event identity; on a match the stored entry, flag included, is sent and deleted; otherwise nothing happens |
| Coalescing.BurstSaysAndMore | main/Handlers/FirebaseHandlers/FcmHandler.go:142-146 | with the flag kept, an event coalesced into a pending window makes that window's one notification say "and more" |
| Coalescing.LoneEventSaysRated | main/Handlers/FirebaseHandlers/FcmHandler.go:149-152 | with the flag kept, a window nobody joined still sends the plain text |
| Coalescing.BurstFlagLost | main/Handlers/FirebaseHandlers/FcmHandler.go:142-146 | as written, the same burst sends the plain text |
| Coalescing.TwoWindows | main/Handlers/FirebaseHandlers/FcmHandler.go:134-165 | ratings at t=0 and t=60 give one timer at 300 and one notification; a rating at t=400 gives a second timer at 700 and a second notification |
| Coalescing.HandleMarkedKeepsTracked | main/Handlers/FirebaseHandlers/FcmHandler.go:141-152 | the corrected handler keeps every entry stored under its rater and backed by a pending timer for the same event |
| Coalescing.FireMarkedKeepsTracked | main/Handlers/FirebaseHandlers/FcmHandler.go:152-165 | firing any pending timer in the corrected scheduler leaves every remaining entry backed by a pending timer, so no window's notification is stranded |
| Coalescing.FlaggedEntryFailsValueMatch | main/Handlers/FirebaseHandlers/FcmHandler.go:145-158 | flagging the stored entry while keeping the code's value comparison makes the window's timer send nothing and leave the flagged entry behind |
| Inspect.UpperChar | main/Handlers/MovieHandlers/InspectHandler.go:100 | `strings.ToUpper` on one ASCII character: lower-case letters move to upper case, every other character is kept, and no result is lower case |
| Inspect.Upper | main/Handlers/MovieHandlers/InspectHandler.go:100 | `strings.ToUpper` on an ASCII string: same length, each character upper-cased on its own |
| Inspect.CountryOf | main/Handlers/MovieHandlers/InspectHandler.go:63-65 | an empty country becomes "de"; any other value is kept |
| Inspect.FilterCountry | main/Handlers/MovieHandlers/InspectHandler.go:98-103 | keeps exactly the keys equal to the country ignoring case, with their values unchanged |
| Inspect.FilterInPlace | main/Handlers/MovieHandlers/InspectHandler.go:98-103 | the delete-while-ranging loop ends with exactly `FilterCountry`'s map |
| Inspect.FilterIdempotent | main/Handlers/MovieHandlers/InspectHandler.go:98-103 | filtering twice gives the same map as filtering once |
| Inspect.SameCountryIgnoresCase | main/Handlers/MovieHandlers/InspectHandler.go:100 | upper-casing either side first does not change whether a key matches |
| Inspect.ServeInspect | main/Handlers/MovieHandlers/InspectHandler.go:55-103 | an empty movie id gives 400 before any lookup; a country not 2 long after defaulting gives 400 before any lookup; otherwise the cache is asked first; an empty cached title triggers a search; a cache hit listing the country is served from the cache alone; a cache miss serves the search's movie, searching a second time when it does not list the country; a cache hit not listing the country is refetched and the search's movie served; a failed search gives 404; every served map holds only keys matching the country |
| Inspect.CachedSearchServesAgain | main/Handlers/MovieHandlers/InspectHandler.go:48-50 | once a searched movie that lists the country is in the cache, the same request gets the same response from the cache alone |

## Left out

- HTTP wrappers and `AuthorizationWrapper`: these are request plumbing and token checks by a foreign client. Every friend wrapper lacks a `return` after "Missing friendId", so the empty id reaches the transition; `Friends.GetAndParse` answers it with 404 "friend doesn't exist", and the 400 the wrapper has already written is not modelled.
- Friends.GetAndParse: a failed read of a record that exists (a network or permission error) is not modelled; the code answers it with the same 404 as a missing record and writes nothing, while the model answers 404 only for an absent key.
- Firestore, FCM messaging and Mongo clients: they are replaced by the store map, `Faults`, the `Profile` and cached-title inputs of a firing, the cache and search inputs of the inspect endpoint, and effect lists.
- `getUserInfo`: its result is the `Profile` input of a firing, and its zero user on failure is the profile with nil friends.
- Notify.UnsubscribeFromUser, Notify.SubscribeToUser, Friends.RemoveFriend, Friends.Accept: the model assumes topic subscription and unsubscription succeed. A failed subscription ends the process through `log.Fatalln`. A failed unsubscription reads `SuccessCount` from the nil response and panics, so `removeFriend` then issues no second unsubscription and returns no 200. Neither is modelled.
- Failed pushes and broadcasts are logged and swallowed, so the effect is recorded whether or not delivery succeeds.
- Goroutines, `time.AfterFunc` and the mutex: a firing is a step on any pending timer chosen by the caller. Time is whole seconds, and `time.Since` is `now - dateTime`. Races between goroutines are not modelled.
- Ratings.Fire: a timer may fire at any time at or after its `fireAt`, and which due timer fires next is the caller's choice. Handling and firing steps share no clock in the state, so the lemmas that depend on their order pass increasing times themselves.
- Ratings.FireKeepsGood: states that every stored entry is backed by a pending timer, not that this timer delivers it. A later event of the same rater can replace the entry before the timer is due (`Ratings.BoundaryDrop`), and then that window is never announced.
- Inspect.ServeInspect: both calls to `searchForSingleMovie` see one answer for the same movie and country. The asynchronous `SaveInCache` of a searched movie (lines 48-50) is not modelled. The saved copy also differs from the served one: it carries `Country`, and it shares the `StreamingInfo` map that lines 99-103 then filter. `Inspect.CachedSearchServesAgain` assumes the cache later answers with the unfiltered movie. The JSON marshal failure (lines 106-111) and writing the response are not modelled.
- Upper-casing is ASCII only, and `len(country)` counts characters, which equals Go's byte count for ASCII only.
- Message texts, the JSON `body` link and the "rated something." heading stay abstract beyond the branch choice.
- `User` fields other than name, token and the three arrays (email, picture, ratedMovies, expiresAt), and the float rating fields.
- Deletion and restore handlers, `MongoHandler`, the search handlers, the legacy inspect handler and `main.go`: these are bulk copies, driver wrappers, external API calls and wiring, with no decision logic of the core.

## Findings

| source | as written | input that shows it | evidently intended | confidence | as-written member | corrected member |
|---|---|---|---|---|---|---|
| main/Handlers/FirebaseHandlers/FcmHandler.go:142-146 | inside the window `Multiple = true` is set on the local copy `lastRating`, so the stored entry never carries the flag and the "and more" branch of the notification can never be taken | "u1" rates "tt001" at t=0 and "tt002" at t=60; the timer fires at t=300 and sends "rated tt001." | the stored entry is flagged and the window's one notification says "and more" | high, not executed | Coalescing.BurstFlagLost | Coalescing.BurstSaysAndMore |

The as-written scheduler is `Ratings.Handle` and `Ratings.Fire`. `Ratings.NeverAndMore` proves the flag never reaches a notification. The corrected scheduler is `Coalescing.HandleMarked` and `Coalescing.FireMarked`. Only setting the flag on the stored entry is not enough. The timer's value comparison would then never match, and the window's notification would be lost; `Coalescing.FlaggedEntryFailsValueMatch` states this. So `FireMarked` also matches its window by event identity and sends the entry as it is when the timer fires. `Coalescing.HandleMarkedKeepsTracked` and `Coalescing.FireMarkedKeepsTracked` show that the corrected scheduler strands no entry. `Coalescing.TwoWindows` runs the concrete scenario through both schedulers.

=== FILE: coalescing.dfy ===
/**
 The coalescing the rating handler evidently intends. As written, the
 within-window branch raises `Multiple` on a local copy, so the stored
 entry never carries the flag and the "and more" text is never sent.
 Here the flag is raised on the stored entry, and a firing timer
 recognises its window by the event's identity (rater, movie, time)
 rather than by the full value, then sends the entry as it is now.
 */
module Coalescing {
  import opened Helpers
  import opened Notify
  import opened Ratings

  /** The same rating event, whatever its flag says. */
  predicate SameEvent(a: RatingEvent, b: RatingEvent) {
    a.userId == b.userId && a.movieId == b.movieId && a.dateTime == b.dateTime
  }

  /** `Handle` with the flag raised on the stored entry. */
  function HandleMarked(s: Scheduler, now: int, rating: RatingEvent): (r: Scheduler)
    ensures Coalesces(Entries(s.userRatings), now, rating) ==>
      && Entries(r.userRatings).Keys == Entries(s.userRatings).Keys
      && Entries(r.userRatings)[rating.userId] == Entries(s.userRatings)[rating.userId].(multiple := true)
      && (forall u :: u in Entries(s.userRatings) && u != rating.userId ==>
            Entries(r.userRatings)[u] == Entries(s.userRatings)[u])
      && r.timers == s.timers
    ensures !Coalesces(Entries(s.userRatings), now, rating) ==> r == Handle(s, now, rating)
  {
    var m := Entries(s.userRatings);
    if rating.userId in m && now - m[rating.userId].dateTime < Window then
      Scheduler(Val(m[rating.userId := m[rating.userId].(multiple := true)]), s.timers)
    else
      Handle(s, now, rating)
  }

  /** `Fire` that matches the window by identity and sends the stored
      entry, flag included. */
  function FireMarked(s: Scheduler, i: nat, now: int, profile: Profile, cachedTitle: string): (r: Fired)
    requires i < |s.timers| && s.timers[i].fireAt <= now
    ensures r.scheduler.timers == Without(s.timers, i)
    ensures var snap := s.timers[i].snapshot;
      var m := Entries(s.userRatings);
      if snap.userId in m && SameEvent(m[snap.userId], snap) then
        && Entries(r.scheduler.userRatings) == m - {snap.userId}
        && r.sent == SendToFriends(m[snap.userId], profile, cachedTitle)
      else
        r.scheduler.userRatings == s.userRatings && r.sent == []
  {
    var snap := s.timers[i].snapshot;
    var m := Entries(s.userRatings);
    var rest := Without(s.timers, i);
    if snap.userId in m && SameEvent(m[snap.userId], snap) then
      Fired(Scheduler(Val(m - {snap.userId}), rest), SendToFriends(m[snap.userId], profile, cachedTitle))
    else
      Fired(Scheduler(s.userRatings, rest), [])
  }

  /** Intended behaviour: an event coalesced into a pending window turns
      that window's notification into the "and more" text. */
  lemma BurstSaysAndMore(s: Scheduler, i: nat, now: int, at: int, rating: RatingEvent, p: Profile, title: string)
    requires i < |s.timers| && Current(Entries(s.userRatings), s.timers[i].snapshot)
    requires s.timers[i].fireAt <= at
    requires rating.userId == s.timers[i].snapshot.userId
    requires Coalesces(Entries(s.userRatings), now, rating)
    requires p.friends.Val?
    ensures var e := s.timers[i].snapshot;
      FireMarked(HandleMarked(s, now, rating), i, at, p, title).sent
        == [Broadcast(e.userId, RatedMore(p.name, TitleFor(e, title)))]
  {
  }

  /** Intended behaviour: a window nobody joined still sends the plain text. */
  lemma LoneEventSaysRated(s: Scheduler, now: int, rating: RatingEvent, p: Profile, title: string)
    requires !Coalesces(Entries(s.userRatings), now, rating) && !rating.multiple
    requires p.friends.Val?
    ensures var r := HandleMarked(s, now, rating);
      |s.timers| < |r.timers|
      && FireMarked(r, |s.timers|, now + Window, p, title).sent
        == [Broadcast(rating.userId, Rated(p.name, TitleFor(rating, title)))]
  {
  }

  /** As written: the same burst leaves the text at "rated X." because the
      stored entry never changed. */
  lemma BurstFlagLost(s: Scheduler, i: nat, now: int, at: int, rating: RatingEvent, p: Profile, title: string)
    requires i < |s.timers| && Current(Entries(s.userRatings), s.timers[i].snapshot)
    requires s.timers[i].fireAt <= at
    requires !s.timers[i].snapshot.multiple
    requires rating.userId == s.timers[i].snapshot.userId
    requires Coalesces(Entries(s.userRatings), now, rating)
    requires p.friends.Val?
    ensures var e := s.timers[i].snapshot;
      Fire(Handle(s, now, rating), i, at, p, title).sent
        == [Broadcast(e.userId, Rated(p.name, TitleFor(e, title)))]
  {
  }

  /** The two-window scenario: "u1" rates at t=0 and t=60, the window's
      timer fires at t=300, a third rating at t=400 fires at t=700.
      Exactly one notification per window; as written the first one
      says "rated tt001." and with the flag kept it says "and more". */
  lemma TwoWindows(p: Profile)
    requires p.friends.Val?
    ensures
      var e1 := NewEvent("u1", "tt001", 0);
      var e2 := NewEvent("u1", "tt002", 60);
      var e3 := NewEvent("u1", "tt003", 400);
      // as written
      var s2 := Handle(Handle(Idle, 0, e1), 60, e2);
      var f1 := Fire(s2, 0, 300, p, "");
      var s3 := Handle(f1.scheduler, 400, e3);
      var f2 := Fire(s3, 0, 700, p, "");
      // with the flag kept
      var m2 := HandleMarked(HandleMarked(Idle, 0, e1), 60, e2);
      var g1 := FireMarked(m2, 0, 300, p, "");
      && s2.timers == [Timer(300, e1)]
      && f1.sent == [Broadcast("u1", Rated(p.name, "tt001"))]
      && f1.scheduler == Scheduler(Val(map[]), [])
      && s3.timers == [Timer(700, e3)]
      && f2.sent == [Broadcast("u1", Rated(p.name, "tt003"))]
      && f2.scheduler == Scheduler(Val(map[]), [])
      && m2.timers == [Timer(300, e1)]
      && g1.sent == [Broadcast("u1", RatedMore(p.name, "tt001"))]
  {
    var e1 := NewEvent("u1", "tt001", 0);
    var e2 := NewEvent("u1", "tt002", 60);
    var e3 := NewEvent("u1", "tt003", 400);
    var s1 := Handle(Idle, 0, e1);
    assert Entries(s1.userRatings) == map["u1" := e1];
    var s2 := Handle(s1, 60, e2);
    var f1 := Fire(s2, 0, 300, p, "");
    assert Entries(f1.scheduler.userRatings) == map[];
    var m2 := HandleMarked(HandleMarked(Idle, 0, e1), 60, e2);
    assert Entries(m2.userRatings) == map["u1" := e1.(multiple := true)];
  }

  /** The corrected scheduler's invariant: every entry is stored under its
      rater and some pending timer still holds the same event, so every
      window's notification is still due. */
  ghost predicate Tracked(s: Scheduler) {
    forall u :: u in Entries(s.userRatings) ==>
      && Entries(s.userRatings)[u].userId == u
      && exists j :: 0 <= j < |s.timers| && SameEvent(s.timers[j].snapshot, Entries(s.userRatings)[u])
  }

  /** Handling an event keeps every stored entry tracked. */
  lemma HandleMarkedKeepsTracked(s: Scheduler, now: int, rating: RatingEvent)
    requires Tracked(s)
    ensures Tracked(HandleMarked(s, now, rating))
  {
    var r := HandleMarked(s, now, rating);
    var m := Entries(s.userRatings);
    var m' := Entries(r.userRatings);
    forall u | u in m'
      ensures m'[u].userId == u
      ensures exists j :: 0 <= j < |r.timers| && SameEvent(r.timers[j].snapshot, m'[u])
    {
      if Coalesces(m, now, rating) {
        var j :| 0 <= j < |s.timers| && SameEvent(s.timers[j].snapshot, m[u]);
        assert SameEvent(r.timers[j].snapshot, m'[u]);
      } else if u == rating.userId {
        assert SameEvent(r.timers[|s.timers|].snapshot, m'[u]);
      } else {
        var j :| 0 <= j < |s.timers| && SameEvent(s.timers[j].snapshot, m[u]);
        assert r.timers[j] == r.timers[..|s.timers|][j];
      }
    }
  }

  /** Firing any pending timer keeps every remaining entry tracked: the
      spent timer belonged to no entry that is left. */
  lemma FireMarkedKeepsTracked(s: Scheduler, i: nat, now: int, profile: Profile, cachedTitle: string)
    requires Tracked(s) && i < |s.timers| && s.timers[i].fireAt <= now
    ensures Tracked(FireMarked(s, i, now, profile, cachedTitle).scheduler)
  {
    var r := FireMarked(s, i, now, profile, cachedTitle).scheduler;
    var m := Entries(s.userRatings);
    var m' := Entries(r.userRatings);
    var snap := s.timers[i].snapshot;
    forall u | u in m'
      ensures m'[u].userId == u
      ensures exists j :: 0 <= j < |r.timers| && SameEvent(r.timers[j].snapshot, m'[u])
    {
      assert u in m && m'[u] == m[u];
      var j :| 0 <= j < |s.timers| && SameEvent(s.timers[j].snapshot, m[u]);
      // timer `i` matching entry `u` would have fired for `u`, deleting it
      assert j != i;
      if j < i {
        assert r.timers[j] == s.timers[j];
      } else {
        assert r.timers[j - 1] == s.timers[j];
      }
    }
  }

  /** Why the corrected callback matches by identity: with the flag kept
      on the entry but the value comparison of the code, a burst's
      window never sends at all. */
  lemma FlaggedEntryFailsValueMatch(s: Scheduler, i: nat, now: int, at: int, rating: RatingEvent, p: Profile, title: string)
    requires i < |s.timers| && Current(Entries(s.userRatings), s.timers[i].snapshot)
    requires s.timers[i].fireAt <= at
    requires !s.timers[i].snapshot.multiple
    requires rating.userId == s.timers[i].snapshot.userId
    requires Coalesces(Entries(s.userRatings), now, rating)
    ensures Fire(HandleMarked(s, now, rating), i, at, p, title).sent == []
    ensures Entries(Fire(HandleMarked(s, now, rating), i, at, p, title).scheduler.userRatings)
      == Entries(HandleMarked(s, now, rating).userRatings)
  {
  }
}

=== FILE: friend_laws.dfy ===
/**
 What each successful transition does to the relationship, stated edge by
 edge: `Rel(s, a, f, b)` is the edge "b is listed in field f of a". Then
 the two consistency invariants of the friend graph, their preservation
 by every transition whose writes all succeed, and the consequences the
 handlers rely on (a second accept or remove fails, a crossing request is
 auto-accepted, a half-applied send breaks the mirror).
 */
module FriendLaws {
  import opened Notify
  import opened Users
  import opened Friends

  /** For every live pair, an outgoing request is mirrored by an incoming
      one, and friendship is symmetric. */
  ghost predicate Mirrored(s: Store) {
    && (forall a, b :: Live(s, a) && Live(s, b) ==>
          (Rel(s, a, OutgoingRequests, b) <==> Rel(s, b, FriendRequests, a)))
    && (forall a, b :: Live(s, a) && Live(s, b) ==>
          (Rel(s, a, Friends, b) <==> Rel(s, b, Friends, a)))
  }

  /** A counterpart other than oneself sits in at most one of the three
      arrays of a record. */
  ghost predicate Exclusive(s: Store) {
    forall a, b :: a != b ==>
      && !(Rel(s, a, Friends, b) && Rel(s, a, FriendRequests, b))
      && !(Rel(s, a, Friends, b) && Rel(s, a, OutgoingRequests, b))
      && !(Rel(s, a, FriendRequests, b) && Rel(s, a, OutgoingRequests, b))
  }

  ghost predicate Consistent(s: Store) {
    Mirrored(s) && Exclusive(s)
  }

  // ---------------------------------------------------------------------
  // Edge-level meaning of each successful transition

  /** A fresh send adds exactly the two mirrored pending entries, keeps
      both Friends arrays as they were and notifies the friend. */
  lemma SendCreatesRequest(s: Store, userId: string, friendId: string)
    requires SendFresh(s, userId, friendId)
    ensures var r := Send(s, userId, friendId, NoFaults);
      && r.status == Ok
      && (forall a, f, b :: Rel(r.store, a, f, b) <==>
            || Rel(s, a, f, b)
            || (a == friendId && f == FriendRequests && b == userId)
            || (a == userId && f == OutgoingRequests && b == friendId))
      && r.store[userId].user.friends == s[userId].user.friends
      && r.store[friendId].user.friends == s[friendId].user.friends
      && r.effects == SendNotification(s[friendId].user.fcmToken, RequestReceived(s[userId].user.name))
  {
    var t1 := ArrayUnion(FriendRequests, userId);
    var t2 := ArrayUnion(OutgoingRequests, friendId);
    var s1 := Update(s, friendId, [t1], false);
    var s2 := Update(s1, userId, [t2], false);
    assert Send(s, userId, friendId, NoFaults).store == s2;
    MemberAfterPair(t1, t2, Friends, userId, false);
    MemberAfterPair(t2, t1, Friends, userId, false);
    assert Get(s1[friendId].user, Friends) == Get(s[friendId].user, Friends);
    assert Get(s2[userId].user, Friends) == Get(s1[userId].user, Friends);
    forall a, f, b
      ensures Rel(s2, a, f, b) <==>
        || Rel(s, a, f, b)
        || (a == friendId && f == FriendRequests && b == userId)
        || (a == userId && f == OutgoingRequests && b == friendId)
    {
      MemberAfterPair(t1, t2, f, b, Rel(s, a, f, b));
      MemberAfterPair(t2, t1, f, b, Rel(s1, a, f, b));
    }
  }

  /** When the second write of a fresh send fails, the friend already holds
      the incoming request and has been notified, but the user's outgoing
      entry is missing: the 500 leaves a half-applied request behind. */
  lemma SendHalfApplied(s: Store, userId: string, friendId: string)
    requires SendFresh(s, userId, friendId)
    ensures var r := Send(s, userId, friendId, Faults(false, true));
      && r.status == InternalError
      && (forall a, f, b :: Rel(r.store, a, f, b) <==>
            Rel(s, a, f, b) || (a == friendId && f == FriendRequests && b == userId))
      && r.effects == SendNotification(s[friendId].user.fcmToken, RequestReceived(s[userId].user.name))
  {
    var t1 := ArrayUnion(FriendRequests, userId);
    var s1 := Update(s, friendId, [t1], false);
    assert Send(s, userId, friendId, Faults(false, true)).store == s1;
    forall a, f, b
      ensures Rel(s1, a, f, b) <==> Rel(s, a, f, b) || (a == friendId && f == FriendRequests && b == userId)
    {
      MemberAfterPair(t1, t1, f, b, Rel(s, a, f, b));
    }
  }

  /** A successful accept moves `friendId` from the user's incoming
      requests to its friends and `userId` from the friend's outgoing
      requests to its friends; nothing else changes. */
  lemma AcceptMakesFriends(s: Store, userId: string, friendId: string)
    requires AcceptPending(s, userId, friendId)
    ensures var r := Accept(s, userId, friendId, NoFaults);
      && r.status == Ok
      && (forall a, f, b :: Rel(r.store, a, f, b) <==>
            if (a == userId && f == Friends && b == friendId) || (a == friendId && f == Friends && b == userId) then true
            else if (a == userId && f == FriendRequests && b == friendId) || (a == friendId && f == OutgoingRequests && b == userId) then false
            else Rel(s, a, f, b))
      && r.effects ==
           SubscribeToUser(s[friendId].user.fcmToken, userId)
           + SubscribeToUser(s[userId].user.fcmToken, friendId)
           + SendNotification(s[friendId].user.fcmToken, RequestAccepted(s[userId].user.name, friendId))
  {
    var t1 := ArrayUnion(Friends, friendId);
    var t2 := ArrayRemove(FriendRequests, friendId);
    var t3 := ArrayUnion(Friends, userId);
    var t4 := ArrayRemove(OutgoingRequests, userId);
    var s1 := Update(s, userId, [t1, t2], false);
    var s2 := Update(s1, friendId, [t3, t4], false);
    assert Accept(s, userId, friendId, NoFaults).store == s2;
    forall a, f, b
      ensures Rel(s2, a, f, b) <==>
        if (a == userId && f == Friends && b == friendId) || (a == friendId && f == Friends && b == userId) then true
        else if (a == userId && f == FriendRequests && b == friendId) || (a == friendId && f == OutgoingRequests && b == userId) then false
        else Rel(s, a, f, b)
    {
      MemberAfterPair(t1, t2, f, b, Rel(s, a, f, b));
      MemberAfterPair(t3, t4, f, b, Rel(s1, a, f, b));
    }
  }

  /** A crossing send resolves through accept with status 210 and never
      leaves a new pending entry behind. */
  lemma SendAutoAccepts(s: Store, userId: string, friendId: string)
    requires SendCrossing(s, userId, friendId)
    ensures var r := Send(s, userId, friendId, NoFaults);
      && r.status == AutoAccepted
      && Rel(r.store, userId, Friends, friendId) && Rel(r.store, friendId, Friends, userId)
      && !Rel(r.store, userId, OutgoingRequests, friendId)
      && !Rel(r.store, userId, FriendRequests, friendId)
      && (Rel(r.store, friendId, FriendRequests, userId) ==> Rel(s, friendId, FriendRequests, userId))
  {
    AcceptMakesFriends(s, userId, friendId);
  }

  /** A successful decline removes exactly the two mirrored pending entries. */
  lemma DeclineClearsRequest(s: Store, userId: string, friendId: string)
    requires DeclinePending(s, userId, friendId)
    ensures var r := Decline(s, userId, friendId, NoFaults);
      && r.status == Ok
      && (forall a, f, b :: Rel(r.store, a, f, b) <==>
            && Rel(s, a, f, b)
            && !(a == userId && f == FriendRequests && b == friendId)
            && !(a == friendId && f == OutgoingRequests && b == userId))
  {
    var t1 := ArrayRemove(FriendRequests, friendId);
    var t2 := ArrayRemove(OutgoingRequests, userId);
    var s1 := Update(s, userId, [t1], false);
    var s2 := Update(s1, friendId, [t2], false);
    assert Decline(s, userId, friendId, NoFaults).store == s2;
    forall a, f, b
      ensures Rel(s2, a, f, b) <==>
        && Rel(s, a, f, b)
        && !(a == userId && f == FriendRequests && b == friendId)
        && !(a == friendId && f == OutgoingRequests && b == userId)
    {
      MemberAfterPair(t1, t2, f, b, Rel(s, a, f, b));
      MemberAfterPair(t2, t1, f, b, Rel(s1, a, f, b));
    }
  }

  /** A successful revoke removes exactly the two mirrored pending entries. */
  lemma RevokeClearsRequest(s: Store, userId: string, friendId: string)
    requires RequestSent(s, userId, friendId)
    ensures var r := Revoke(s, userId, friendId, NoFaults);
      && r.status == Ok
      && (forall a, f, b :: Rel(r.store, a, f, b) <==>
            && Rel(s, a, f, b)
            && !(a == friendId && f == FriendRequests && b == userId)
            && !(a == userId && f == OutgoingRequests && b == friendId))
  {
    var t1 := ArrayRemove(FriendRequests, userId);
    var t2 := ArrayRemove(OutgoingRequests, friendId);
    var s1 := Update(s, friendId, [t1], false);
    var s2 := Update(s1, userId, [t2], false);
    assert Revoke(s, userId, friendId, NoFaults).store == s2;
    forall a, f, b
      ensures Rel(s2, a, f, b) <==>
        && Rel(s, a, f, b)
        && !(a == friendId && f == FriendRequests && b == userId)
        && !(a == userId && f == OutgoingRequests && b == friendId)
    {
      MemberAfterPair(t1, t2, f, b, Rel(s, a, f, b));
      MemberAfterPair(t2, t1, f, b, Rel(s1, a, f, b));
    }
  }

  /** A successful remove takes each id out of the other's Friends array
      and unsubscribes both devices from each other's topic. */
  lemma RemoveEndsFriendship(s: Store, userId: string, friendId: string)
    requires AreFriends(s, userId, friendId)
    ensures var r := RemoveFriend(s, userId, friendId, NoFaults);
      && r.status == Ok
      && (forall a, f, b :: Rel(r.store, a, f, b) <==>
            && Rel(s, a, f, b)
            && !(a == userId && f == Friends && b == friendId)
            && !(a == friendId && f == Friends && b == userId))
      && r.effects ==
           UnsubscribeFromUser(s[friendId].user.fcmToken, userId)
           + UnsubscribeFromUser(s[userId].user.fcmToken, friendId)
  {
    var t1 := ArrayRemove(Friends, friendId);
    var t2 := ArrayRemove(Friends, userId);
    var s1 := Update(s, userId, [t1], false);
    var s2 := Update(s1, friendId, [t2], false);
    assert RemoveFriend(s, userId, friendId, NoFaults).store == s2;
    forall a, f, b
      ensures Rel(s2, a, f, b) <==>
        && Rel(s, a, f, b)
        && !(a == userId && f == Friends && b == friendId)
        && !(a == friendId && f == Friends && b == userId)
    {
      MemberAfterPair(t1, t2, f, b, Rel(s, a, f, b));
      MemberAfterPair(t2, t1, f, b, Rel(s1, a, f, b));
    }
  }

  // ---------------------------------------------------------------------
  // Half-applied transitions: the first write persists, the second fails,
  // nothing is rolled back and the 500 returns before any dispatch.

  /** Accept whose friend write fails: the user already lists the friend
      and no longer holds the request, the friend's record is untouched. */
  lemma AcceptHalfApplied(s: Store, userId: string, friendId: string)
    requires AcceptPending(s, userId, friendId)
    ensures var r := Accept(s, userId, friendId, Faults(false, true));
      && r.status == InternalError
      && r.effects == []
      && (forall a, f, b :: Rel(r.store, a, f, b) <==>
            if a == userId && f == Friends && b == friendId then true
            else if a == userId && f == FriendRequests && b == friendId then false
            else Rel(s, a, f, b))
      && (userId != friendId ==> r.store[friendId] == s[friendId])
  {
    var t1 := ArrayUnion(Friends, friendId);
    var t2 := ArrayRemove(FriendRequests, friendId);
    var s1 := Update(s, userId, [t1, t2], false);
    assert Accept(s, userId, friendId, Faults(false, true)).store == s1;
    forall a, f, b
      ensures Rel(s1, a, f, b) <==>
        if a == userId && f == Friends && b == friendId then true
        else if a == userId && f == FriendRequests && b == friendId then false
        else Rel(s, a, f, b)
    {
      MemberAfterPair(t1, t2, f, b, Rel(s, a, f, b));
    }
  }

  /** Decline whose friend write fails: the user's incoming request is
      gone, the friend still lists its outgoing one. */
  lemma DeclineHalfApplied(s: Store, userId: string, friendId: string)
    requires DeclinePending(s, userId, friendId)
    ensures var r := Decline(s, userId, friendId, Faults(false, true));
      && r.status == InternalError
      && (forall a, f, b :: Rel(r.store, a, f, b) <==>
            Rel(s, a, f, b) && !(a == userId && f == FriendRequests && b == friendId))
      && (userId != friendId ==> r.store[friendId] == s[friendId])
  {
    var t1 := ArrayRemove(FriendRequests, friendId);
    var s1 := Update(s, userId, [t1], false);
    assert Decline(s, userId, friendId, Faults(false, true)).store == s1;
    forall a, f, b
      ensures Rel(s1, a, f, b) <==> Rel(s, a, f, b) && !(a == userId && f == FriendRequests && b == friendId)
    {
      MemberAfterPair(t1, t1, f, b, Rel(s, a, f, b));
    }
  }

  /** Remove whose friend write fails: the user no longer lists the
      friend, the friend still lists the user, and nobody is unsubscribed. */
  lemma RemoveHalfApplied(s: Store, userId: string, friendId: string)
    requires AreFriends(s, userId, friendId)
    ensures var r := RemoveFriend(s, userId, friendId, Faults(false, true));
      && r.status == InternalError
      && r.effects == []
      && (forall a, f, b :: Rel(r.store, a, f, b) <==>
            Rel(s, a, f, b) && !(a == userId && f == Friends && b == friendId))
      && (userId != friendId ==> r.store[friendId] == s[friendId])
  {
    var t1 := ArrayRemove(Friends, friendId);
    var s1 := Update(s, userId, [t1], false);
    assert RemoveFriend(s, userId, friendId, Faults(false, true)).store == s1;
    forall a, f, b
      ensures Rel(s1, a, f, b) <==> Rel(s, a, f, b) && !(a == userId && f == Friends && b == friendId)
    {
      MemberAfterPair(t1, t1, f, b, Rel(s, a, f, b));
    }
  }

  /** Revoke whose user write fails: the friend no longer holds the
      request, the user still lists it as outgoing. */
  lemma RevokeHalfApplied(s: Store, userId: string, friendId: string)
    requires RequestSent(s, userId, friendId)
    ensures var r := Revoke(s, userId, friendId, Faults(false, true));
      && r.status == InternalError
      && (forall a, f, b :: Rel(r.store, a, f, b) <==>
            Rel(s, a, f, b) && !(a == friendId && f == FriendRequests && b == userId))
      && (userId != friendId ==> r.store[userId] == s[userId])
  {
    var t1 := ArrayRemove(FriendRequests, userId);
    var s1 := Update(s, friendId, [t1], false);
    assert Revoke(s, userId, friendId, Faults(false, true)).store == s1;
    forall a, f, b
      ensures Rel(s1, a, f, b) <==> Rel(s, a, f, b) && !(a == friendId && f == FriendRequests && b == userId)
    {
      MemberAfterPair(t1, t1, f, b, Rel(s, a, f, b));
    }
  }

  // ---------------------------------------------------------------------
  // Invariants

  lemma SendKeepsConsistent(s: Store, userId: string, friendId: string)
    requires Consistent(s)
    ensures Consistent(Send(s, userId, friendId, NoFaults).store)
  {
    if SendCrossing(s, userId, friendId) {
      AcceptKeepsConsistent(s, userId, friendId);
    } else if SendFresh(s, userId, friendId) {
      SendCreatesRequest(s, userId, friendId);
    }
  }

  lemma AcceptKeepsConsistent(s: Store, userId: string, friendId: string)
    requires Consistent(s)
    ensures Consistent(Accept(s, userId, friendId, NoFaults).store)
  {
    if AcceptPending(s, userId, friendId) {
      AcceptMakesFriends(s, userId, friendId);
      var t := Accept(s, userId, friendId, NoFaults).store;
      assert forall k :: Live(t, k) <==> Live(s, k);
      forall a, b | Live(t, a) && Live(t, b)
        ensures Rel(t, a, OutgoingRequests, b) <==> Rel(t, b, FriendRequests, a)
        ensures Rel(t, a, Friends, b) <==> Rel(t, b, Friends, a)
      {
        assert Rel(s, a, OutgoingRequests, b) <==> Rel(s, b, FriendRequests, a);
        assert Rel(s, a, Friends, b) <==> Rel(s, b, Friends, a);
      }
      forall a, b | a != b
        ensures !(Rel(t, a, Friends, b) && Rel(t, a, FriendRequests, b))
        ensures !(Rel(t, a, Friends, b) && Rel(t, a, OutgoingRequests, b))
        ensures !(Rel(t, a, FriendRequests, b) && Rel(t, a, OutgoingRequests, b))
      {
        if a == userId && b == friendId {
          assert !Rel(s, a, OutgoingRequests, b);
        } else if a == friendId && b == userId {
          assert !Rel(s, userId, OutgoingRequests, friendId);
          assert !Rel(s, a, FriendRequests, b);
        }
      }
    }
  }

  lemma DeclineKeepsConsistent(s: Store, userId: string, friendId: string)
    requires Consistent(s)
    ensures Consistent(Decline(s, userId, friendId, NoFaults).store)
  {
    if DeclinePending(s, userId, friendId) {
      DeclineClearsRequest(s, userId, friendId);
    }
  }

  lemma RevokeKeepsConsistent(s: Store, userId: string, friendId: string)
    requires Consistent(s)
    ensures Consistent(Revoke(s, userId, friendId, NoFaults).store)
  {
    if RequestSent(s, userId, friendId) {
      RevokeClearsRequest(s, userId, friendId);
    }
  }

  lemma RemoveKeepsConsistent(s: Store, userId: string, friendId: string)
    requires Consistent(s)
    ensures Consistent(RemoveFriend(s, userId, friendId, NoFaults).store)
  {
    if AreFriends(s, userId, friendId) {
      RemoveEndsFriendship(s, userId, friendId);
    }
  }

  // ---------------------------------------------------------------------
  // Consequences

  /** Accept succeeds at most once in a row for the same pair. */
  lemma AcceptTwiceFails(s: Store, userId: string, friendId: string)
    requires Accept(s, userId, friendId, NoFaults).status == Ok
    ensures var t := Accept(s, userId, friendId, NoFaults).store;
      Accept(t, userId, friendId, NoFaults) == Reply(Status(400, "no friend request"), t, [])
  {
    AcceptMakesFriends(s, userId, friendId);
  }

  /** Remove succeeds at most once in a row for the same pair. */
  lemma RemoveTwiceFails(s: Store, userId: string, friendId: string)
    requires RemoveFriend(s, userId, friendId, NoFaults).status == Ok
    ensures var t := RemoveFriend(s, userId, friendId, NoFaults).store;
      RemoveFriend(t, userId, friendId, NoFaults) == Reply(Status(400, "Not friends with user"), t, [])
  {
    RemoveEndsFriendship(s, userId, friendId);
  }

  /** No relation between two distinct live users. */
  ghost predicate Strangers(s: Store, a: string, b: string) {
    && BothLive(s, a, b) && a != b
    && !Rel(s, a, Friends, b) && !Rel(s, a, FriendRequests, b) && !Rel(s, a, OutgoingRequests, b)
    && !Rel(s, b, Friends, a) && !Rel(s, b, FriendRequests, a) && !Rel(s, b, OutgoingRequests, a)
  }

  /** A sends to B, then B sends to A: the second call is auto-accepted
      (210) and the two end up friends with no pending entry left between
      them. Neither may hold a request from itself, because the first
      guard of send looks for the friend's own id in the friend's
      incoming requests. */
  lemma MutualRequestsBecomeFriends(s: Store, a: string, b: string)
    requires Consistent(s) && Strangers(s, a, b)
    requires !Rel(s, a, FriendRequests, a) && !Rel(s, b, FriendRequests, b)
    ensures var r1 := Send(s, a, b, NoFaults);
      var r2 := Send(r1.store, b, a, NoFaults);
      && r1.status == Ok && r2.status == AutoAccepted
      && Rel(r2.store, a, Friends, b) && Rel(r2.store, b, Friends, a)
      && !Rel(r2.store, a, FriendRequests, b) && !Rel(r2.store, a, OutgoingRequests, b)
      && !Rel(r2.store, b, FriendRequests, a) && !Rel(r2.store, b, OutgoingRequests, a)
  {
    SendCreatesRequest(s, a, b);
    var t := Send(s, a, b, NoFaults).store;
    assert SendCrossing(t, b, a);
    AcceptMakesFriends(t, b, a);
  }

  /** The first guard of send inspects the friend's own id: once a user
      holds a request from itself, which send does not prevent, every
      request to that user is refused as "friend already added". */
  lemma SelfRequestBlocksSend(s: Store, a: string, b: string)
    requires BothLive(s, a, b) && a != b
    requires SendFresh(s, a, a)
    ensures var t := Send(s, a, a, NoFaults).store;
      Send(t, b, a, NoFaults).status == Status(400, "friend already added")
  {
    SendCreatesRequest(s, a, a);
  }

  /** A concrete half-applied send: two users with empty arrays, the
      second write fails, and the store is no longer mirrored. */
  lemma HalfAppliedSendBreaksMirror()
    ensures var none := User("A", "", [], [], []);
      var s: Store := map["A" := Decoded(none), "B" := Decoded(none.(name := "B"))];
      var r := Send(s, "A", "B", Faults(false, true));
      Mirrored(s) && r.status == InternalError && !Mirrored(r.store)
  {
    var none := User("A", "", [], [], []);
    var s: Store := map["A" := Decoded(none), "B" := Decoded(none.(name := "B"))];
    assert forall a, f, b :: !Rel(s, a, f, b);
    assert SendFresh(s, "A", "B");
    SendHalfApplied(s, "A", "B");
    var t := Send(s, "A", "B", Faults(false, true)).store;
    assert Rel(t, "B", FriendRequests, "A") && !Rel(t, "A", OutgoingRequests, "B");
  }
}

=== FILE: friends.dfy ===
/**
 The friend-relationship state machine of the friend handler: the shared
 lookup and the five transitions send, accept, decline, remove and
 revoke. Each transition reads both records, checks its guards in the
 source's order, issues its Firestore updates one after the other against
 the current store, and returns a status code and message together with
 the new store and the notification effects it caused.
 */
module Friends {
  import opened Helpers
  import opened Notify
  import opened Users

  datatype Status = Status(code: int, message: string)

  /** What a transition returns: its status, the store after its writes,
      and the dispatch effects in the order they were issued. */
  datatype Reply = Reply(status: Status, store: Store, effects: seq<Effect>)

  /** Whether the first and the second `Update` the transition issues fail. */
  datatype Faults = Faults(first: bool, second: bool)

  const NoFaults := Faults(false, false)
  const Ok := Status(200, "Ok")
  const AutoAccepted := Status(210, "Ok")
  const InternalError := Status(500, "Internal Server Error")

  /** The outcome of the shared lookup of both records. */
  datatype Parsed = Parsed(user: User, friend: User) | LookupFailed(status: Status)

  /** Both records are fetched first (404 for the first one missing), then
      both are decoded (500 for the first one that does not decode). An
      empty id names no document, so its fetch fails like a missing one;
      the wrappers pass an empty `friendId` on. */
  function GetAndParse(s: Store, userId: string, friendId: string): (r: Parsed)
    ensures r.Parsed? <==> BothLive(s, userId, friendId)
    ensures userId == "" || userId !in s ==> r == LookupFailed(Status(404, "user doesn't exist"))
    ensures userId != "" && userId in s && (friendId == "" || friendId !in s) ==>
      r == LookupFailed(Status(404, "friend doesn't exist"))
    ensures userId != "" && userId in s && friendId != "" && friendId in s && r.LookupFailed? ==>
      r.status == InternalError
    ensures r.Parsed? ==> r.user == s[userId].user && r.friend == s[friendId].user
  {
    if userId == "" || userId !in s then LookupFailed(Status(404, "user doesn't exist"))
    else if friendId == "" || friendId !in s then LookupFailed(Status(404, "friend doesn't exist"))
    else if s[userId].Undecodable? || s[friendId].Undecodable? then LookupFailed(InternalError)
    else Parsed(s[userId].user, s[friendId].user)
  }

  /** `t` differs from `s` at most in the records of `a` and `b`, and no
      record appears, disappears or stops decoding. */
  predicate Frame(s: Store, t: Store, a: string, b: string) {
    && t.Keys == s.Keys
    && (forall k :: k in s ==> (Live(t, k) <==> Live(s, k)))
    && (forall k :: k in s && k != a && k != b ==> t[k] == s[k])
  }

  /** The lookup failed: its status is returned and nothing is written. */
  predicate Rejected(s: Store, userId: string, friendId: string, r: Reply) {
    GetAndParse(s, userId, friendId).LookupFailed? ==>
      r == Reply(GetAndParse(s, userId, friendId).status, s, [])
  }

  /** Both ids are non-empty and name decodable records. */
  predicate BothLive(s: Store, userId: string, friendId: string) {
    userId != "" && friendId != "" && Live(s, userId) && Live(s, friendId)
  }

  // Guards of send, in the order the handler checks them.

  predicate SendAlreadyAdded(s: Store, userId: string, friendId: string) {
    BothLive(s, userId, friendId)
    && (Rel(s, userId, Friends, friendId) || Rel(s, friendId, FriendRequests, friendId))
  }

  predicate SendAlreadySent(s: Store, userId: string, friendId: string) {
    BothLive(s, userId, friendId) && !SendAlreadyAdded(s, userId, friendId)
    && Rel(s, userId, OutgoingRequests, friendId)
  }

  predicate SendCrossing(s: Store, userId: string, friendId: string) {
    BothLive(s, userId, friendId) && !SendAlreadyAdded(s, userId, friendId)
    && !Rel(s, userId, OutgoingRequests, friendId) && Rel(s, userId, FriendRequests, friendId)
  }

  predicate SendFresh(s: Store, userId: string, friendId: string) {
    BothLive(s, userId, friendId) && !SendAlreadyAdded(s, userId, friendId)
    && !Rel(s, userId, OutgoingRequests, friendId) && !Rel(s, userId, FriendRequests, friendId)
  }

  /** `sendFriendRequest`: a request from `userId` to `friendId`. */
  function Send(s: Store, userId: string, friendId: string, faults: Faults): (r: Reply)
    ensures Frame(s, r.store, userId, friendId)
    ensures Rejected(s, userId, friendId, r)
    ensures SendAlreadyAdded(s, userId, friendId) ==> r == Reply(Status(400, "friend already added"), s, [])
    ensures SendAlreadySent(s, userId, friendId) ==> r == Reply(Status(400, "friend request already sent"), s, [])
    ensures SendCrossing(s, userId, friendId) ==>
      var a := Accept(s, userId, friendId, faults);
      && r.store == a.store && r.effects == a.effects
      && r.status == (if a.status.code == 200 then AutoAccepted else a.status)
    ensures SendFresh(s, userId, friendId) && faults.first ==> r == Reply(InternalError, s, [])
    ensures SendFresh(s, userId, friendId) && !faults.first ==>
      r.status == (if faults.second then InternalError else Ok)
  {
    match GetAndParse(s, userId, friendId)
    case LookupFailed(st) => Reply(st, s, [])
    case Parsed(user, friend) =>
      if ArrayContains(user.friends, friendId) || ArrayContains(friend.friendRequests, friendId) then
        Reply(Status(400, "friend already added"), s, [])
      else if ArrayContains(user.outgoingRequests, friendId) then
        Reply(Status(400, "friend request already sent"), s, [])
      else if ArrayContains(user.friendRequests, friendId) then
        var a := Accept(s, userId, friendId, faults);
        if a.status.code != 200 then a else a.(status := AutoAccepted)
      else
        var s1 := Update(s, friendId, [ArrayUnion(FriendRequests, userId)], faults.first);
        if faults.first then Reply(InternalError, s1, [])
        else
          var sent := SendNotification(friend.fcmToken, RequestReceived(user.name));
          var s2 := Update(s1, userId, [ArrayUnion(OutgoingRequests, friendId)], faults.second);
          Reply(if faults.second then InternalError else Ok, s2, sent)
  }

  predicate AcceptPending(s: Store, userId: string, friendId: string) {
    BothLive(s, userId, friendId) && Rel(s, userId, FriendRequests, friendId)
  }

  /** `acceptFriendRequest`: `userId` accepts the request from `friendId`. */
  function Accept(s: Store, userId: string, friendId: string, faults: Faults): (r: Reply)
    ensures Frame(s, r.store, userId, friendId)
    ensures Rejected(s, userId, friendId, r)
    ensures BothLive(s, userId, friendId) && !AcceptPending(s, userId, friendId) ==>
      r == Reply(if faults.first then InternalError else Status(400, "no friend request"), s, [])
    ensures AcceptPending(s, userId, friendId) && faults.first ==> r == Reply(InternalError, s, [])
    ensures AcceptPending(s, userId, friendId) && !faults.first ==>
      r.status == (if faults.second then InternalError else Ok)
    // a failed second write returns before any subscription or notification
    ensures AcceptPending(s, userId, friendId) && !faults.first && faults.second ==> r.effects == []
  {
    match GetAndParse(s, userId, friendId)
    case LookupFailed(st) => Reply(st, s, [])
    case Parsed(user, friend) =>
      if !ArrayContains(user.friendRequests, friendId) then
        // removing an absent id leaves the record as it was
        var s1 := Update(s, userId, [ArrayRemove(FriendRequests, friendId)], faults.first);
        assert s1 == s by {
          if !faults.first {
            assert ApplyAll(user, [ArrayRemove(FriendRequests, friendId)]) == user;
          }
        }
        Reply(if faults.first then InternalError else Status(400, "no friend request"), s1, [])
      else
        var s1 := Update(s, userId, [ArrayUnion(Friends, friendId), ArrayRemove(FriendRequests, friendId)], faults.first);
        if faults.first then Reply(InternalError, s1, [])
        else
          var s2 := Update(s1, friendId, [ArrayUnion(Friends, userId), ArrayRemove(OutgoingRequests, userId)], faults.second);
          if faults.second then Reply(InternalError, s2, [])
          else
            Reply(Ok, s2,
              SubscribeToUser(friend.fcmToken, userId)
              + SubscribeToUser(user.fcmToken, friendId)
              + SendNotification(friend.fcmToken, RequestAccepted(user.name, friendId)))
  }

  predicate DeclinePending(s: Store, userId: string, friendId: string) {
    BothLive(s, userId, friendId)
    && Rel(s, userId, FriendRequests, friendId) && Rel(s, friendId, OutgoingRequests, userId)
  }

  /** `declineFriendRequest`: `userId` declines the request from `friendId`;
      both records must agree that it is pending. */
  function Decline(s: Store, userId: string, friendId: string, faults: Faults): (r: Reply)
    ensures Frame(s, r.store, userId, friendId)
    ensures Rejected(s, userId, friendId, r)
    ensures r.effects == []
    ensures BothLive(s, userId, friendId) && !DeclinePending(s, userId, friendId) ==>
      r == Reply(Status(400, "no friend request"), s, [])
    ensures DeclinePending(s, userId, friendId) && faults.first ==> r == Reply(InternalError, s, [])
    ensures DeclinePending(s, userId, friendId) && !faults.first ==>
      r.status == (if faults.second then InternalError else Ok)
  {
    match GetAndParse(s, userId, friendId)
    case LookupFailed(st) => Reply(st, s, [])
    case Parsed(user, friend) =>
      if !ArrayContains(user.friendRequests, friendId) || !ArrayContains(friend.outgoingRequests, userId) then
        Reply(Status(400, "no friend request"), s, [])
      else
        var s1 := Update(s, userId, [ArrayRemove(FriendRequests, friendId)], faults.first);
        if faults.first then Reply(InternalError, s1, [])
        else
          var s2 := Update(s1, friendId, [ArrayRemove(OutgoingRequests, userId)], faults.second);
          Reply(if faults.second then InternalError else Ok, s2, [])
  }

  predicate AreFriends(s: Store, userId: string, friendId: string) {
    BothLive(s, userId, friendId) && Rel(s, userId, Friends, friendId)
  }

  /** `removeFriend`: `userId` ends the friendship with `friendId`. */
  function RemoveFriend(s: Store, userId: string, friendId: string, faults: Faults): (r: Reply)
    ensures Frame(s, r.store, userId, friendId)
    ensures Rejected(s, userId, friendId, r)
    ensures BothLive(s, userId, friendId) && !AreFriends(s, userId, friendId) ==>
      r == Reply(Status(400, "Not friends with user"), s, [])
    ensures AreFriends(s, userId, friendId) && faults.first ==> r == Reply(InternalError, s, [])
    ensures AreFriends(s, userId, friendId) && !faults.first ==>
      r.status == (if faults.second then InternalError else Ok)
    // a failed second write returns before either unsubscription
    ensures AreFriends(s, userId, friendId) && !faults.first && faults.second ==> r.effects == []
  {
    match GetAndParse(s, userId, friendId)
    case LookupFailed(st) => Reply(st, s, [])
    case Parsed(user, friend) =>
      if !ArrayContains(user.friends, friendId) then
        Reply(Status(400, "Not friends with user"), s, [])
      else
        var s1 := Update(s, userId, [ArrayRemove(Friends, friendId)], faults.first);
        if faults.first then Reply(InternalError, s1, [])
        else
          var s2 := Update(s1, friendId, [ArrayRemove(Friends, userId)], faults.second);
          if faults.second then Reply(InternalError, s2, [])
          else
            Reply(Ok, s2,
              UnsubscribeFromUser(friend.fcmToken, userId) + UnsubscribeFromUser(user.fcmToken, friendId))
  }

  predicate RequestSent(s: Store, userId: string, friendId: string) {
    BothLive(s, userId, friendId) && Rel(s, userId, OutgoingRequests, friendId)
  }

  /** `revokeFriendRequest`: `userId` withdraws its request to `friendId`. */
  function Revoke(s: Store, userId: string, friendId: string, faults: Faults): (r: Reply)
    ensures Frame(s, r.store, userId, friendId)
    ensures Rejected(s, userId, friendId, r)
    ensures r.effects == []
    ensures BothLive(s, userId, friendId) && !RequestSent(s, userId, friendId) ==>
      r == Reply(Status(400, "no friend request sent to this user"), s, [])
    ensures RequestSent(s, userId, friendId) && faults.first ==> r == Reply(InternalError, s, [])
    ensures RequestSent(s, userId, friendId) && !faults.first ==>
      r.status == (if faults.second then InternalError else Ok)
  {
    match GetAndParse(s, userId, friendId)
    case LookupFailed(st) => Reply(st, s, [])
    case Parsed(user, friend) =>
      if !ArrayContains(user.outgoingRequests, friendId) then
        Reply(Status(400, "no friend request sent to this user"), s, [])
      else
        var s1 := Update(s, friendId, [ArrayRemove(FriendRequests, userId)], faults.first);
        if faults.first then Reply(InternalError, s1, [])
        else
          var s2 := Update(s1, userId, [ArrayRemove(OutgoingRequests, friendId)], faults.second);
          Reply(if faults.second then InternalError else Ok, s2, [])
  }
}

=== FILE: helpers.dfy ===
/**
 The shared membership test of the backend handlers, and a Go-style
 nullable wrapper used wherever the handlers distinguish a nil map or
 slice from an empty one.
 */
module Helpers {

  /** A Go value that may be nil: `Nil` is the nil map or slice. */
  datatype Nilable<T> = Nil | Val(value: T)

  /** True iff `v` occurs in `a`; scans left to right like the handlers'
      range loop. A nil slice is the empty sequence. */
  function ArrayContains(a: seq<string>, v: string): (r: bool)
    ensures r <==> exists i :: 0 <= i < |a| && a[i] == v
    ensures r <==> v in a
  {
    if |a| == 0 then false
    else if a[0] == v then true
    else
      var rest := ArrayContains(a[1..], v);
      assert rest ==> exists i :: 1 <= i < |a| && a[i] == v by {
        if rest {
          var j :| 0 <= j < |a[1..]| && a[1..][j] == v;
          assert a[j + 1] == v;
        }
      }
      rest
  }

  /** The range loop as written: it returns on the first match, so when
      something is found `at` is the first index holding `v`. */
  method ScanFor(a: seq<string>, v: string) returns (found: bool, at: nat)
    ensures found == ArrayContains(a, v)
    ensures found ==> at < |a| && a[at] == v
    ensures found ==> forall j :: 0 <= j < at ==> a[j] != v
    ensures !found ==> forall j :: 0 <= j < |a| ==> a[j] != v
  {
    at := 0;
    while at < |a|
      invariant at <= |a|
      invariant forall j :: 0 <= j < at ==> a[j] != v
    {
      if a[at] == v {
        return true, at;
      }
      at := at + 1;
    }
    return false, at;
  }

  /** Appending `v` makes it present, and a match in a prefix survives any
      extension of the array. */
  lemma {:induction false} ContainsExtends(a: seq<string>, b: seq<string>, v: string)
    ensures ArrayContains(a + [v], v)
    ensures ArrayContains(a, v) ==> ArrayContains(a + b, v)
  {
    assert (a + [v])[|a|] == v;
    if ArrayContains(a, v) {
      var i :| 0 <= i < |a| && a[i] == v;
      assert (a + b)[i] == v;
    }
  }
}

=== FILE: inspect.dfy ===
/**
 The decision logic of the movie inspect endpoint: parameter validation
 with its defaults, the cache-hit decision, the fallback to the external
 search, and the filter that keeps only the requested country's streaming
 options. The cache and the search are inputs; the lookups the endpoint
 would make are returned in order.
 */
module Inspect {
  import opened Helpers

  /** One way to watch the movie in one country. */
  datatype StreamingOption = StreamingOption(service: string, link: string)

  /** Streaming options per country code; a nil slice is `Nil`. */
  type StreamingInfo = map<string, Nilable<seq<StreamingOption>>>

  /** The parts of a movie response the endpoint inspects. */
  datatype Movie = Movie(title: string, streamingInfo: StreamingInfo)

  /** What the external search returned. */
  datatype Search = SearchFailed | Searched(movie: Movie)

  /** A lookup the endpoint makes. */
  datatype Call = CacheLookup(movieId: string, country: string) | ApiSearch(movieId: string, country: string)

  datatype Response = BadRequest(message: string) | NotFound | Found(movie: Movie)

  datatype Served = Served(response: Response, calls: seq<Call>)

  const DefaultCountry := "de"

  /** ASCII upper-casing of one character. */
  function UpperChar(c: char): (u: char)
    ensures 'a' <= c <= 'z' ==> u as int == c as int - 32
    ensures !('a' <= c <= 'z') ==> u == c
    ensures !('a' <= u <= 'z')
  {
    if 'a' <= c <= 'z' then (c as int - 32) as char else c
  }

  function Upper(s: string): (r: string)
    ensures |r| == |s|
    ensures forall i :: 0 <= i < |s| ==> r[i] == UpperChar(s[i])
  {
    seq(|s|, i requires 0 <= i < |s| => UpperChar(s[i]))
  }

  /** The key names the country, ignoring ASCII case. */
  predicate SameCountry(key: string, country: string) {
    Upper(key) == Upper(country)
  }

  /** The country actually used: the query value, or the default when it
      is empty. */
  function CountryOf(query: string): (c: string)
    ensures query != "" ==> c == query
    ensures query == "" ==> c == DefaultCountry
    ensures c != ""
  {
    if query == "" then DefaultCountry else query
  }

  /** The streaming options kept in the response: the entries whose key
      names the country, unchanged. */
  function FilterCountry(info: StreamingInfo, country: string): (r: StreamingInfo)
    ensures forall k :: k in r <==> k in info && SameCountry(k, country)
    ensures forall k :: k in r ==> r[k] == info[k]
  {
    map k | k in info && SameCountry(k, country) :: info[k]
  }

  /** The handler's loop: every key that does not name the country is
      deleted from the map while ranging over it. */
  method FilterInPlace(info: StreamingInfo, country: string) returns (r: StreamingInfo)
    ensures r == FilterCountry(info, country)
  {
    r := info;
    var keys := info.Keys;
    while keys != {}
      invariant keys <= info.Keys
      invariant forall k :: k in r <==> k in info && (k in keys || SameCountry(k, country))
      invariant forall k :: k in r ==> r[k] == info[k]
      decreases keys
    {
      var k :| k in keys;
      if Upper(k) != Upper(country) {
        r := r - {k};
      }
      keys := keys - {k};
    }
    var f := FilterCountry(info, country);
    assert r.Keys == f.Keys;
  }

  /** Filtering a second time changes nothing. */
  lemma FilterIdempotent(info: StreamingInfo, country: string)
    ensures FilterCountry(FilterCountry(info, country), country) == FilterCountry(info, country)
  {
    var once := FilterCountry(info, country);
    assert FilterCountry(once, country).Keys == once.Keys;
  }

  /** Matching ignores case in both directions. */
  lemma SameCountryIgnoresCase(key: string, country: string)
    ensures SameCountry(key, country) <==> SameCountry(Upper(key), country)
    ensures SameCountry(key, country) <==> SameCountry(key, Upper(country))
  {
    assert Upper(Upper(key)) == Upper(key);
    assert Upper(Upper(country)) == Upper(country);
  }

  /** The options for exactly this key are present and not nil. */
  predicate Listed(info: StreamingInfo, country: string) {
    country in info && info[country].Val?
  }

  /** `ServeHTTP` of the inspect endpoint, given the cache's answer (the
      zero movie on a miss or an error) and the search's answer. */
  function ServeInspect(movieId: string, countryQuery: string, cached: Movie, search: Search): (r: Served)
    ensures movieId == "" ==> r == Served(BadRequest("Movie ID is required"), [])
    ensures movieId != "" && |CountryOf(countryQuery)| != 2 ==>
      r == Served(BadRequest("Country code must be 2 characters long"), [])
    ensures forall i :: 0 <= i < |r.calls| ==>
      r.calls[i].movieId == movieId && r.calls[i].country == CountryOf(countryQuery)
    ensures movieId != "" && |CountryOf(countryQuery)| == 2 ==>
      && 1 <= |r.calls| <= 3
      && r.calls[0] == CacheLookup(movieId, CountryOf(countryQuery))
      && (forall i :: 1 <= i < |r.calls| ==> r.calls[i].ApiSearch?)
      && (cached.title == "" ==> |r.calls| >= 2)
      && (cached.title != "" && Listed(cached.streamingInfo, CountryOf(countryQuery)) ==>
            r == Served(Found(cached.(streamingInfo := FilterCountry(cached.streamingInfo, CountryOf(countryQuery)))),
                        [CacheLookup(movieId, CountryOf(countryQuery))]))
      && (search.SearchFailed? && |r.calls| >= 2 ==> r.response == NotFound)
    // a cache miss is answered by the search, which is asked again when
    // its movie does not list the country
    ensures var c := CountryOf(countryQuery);
      movieId != "" && |c| == 2 && cached.title == "" ==>
        && r.calls == [CacheLookup(movieId, c), ApiSearch(movieId, c)]
             + (if search.Searched? && !Listed(search.movie.streamingInfo, c) then [ApiSearch(movieId, c)] else [])
        && r.response == (if search.SearchFailed? then NotFound
                          else Found(search.movie.(streamingInfo := FilterCountry(search.movie.streamingInfo, c))))
    // a cache hit that does not list the country is refetched
    ensures var c := CountryOf(countryQuery);
      movieId != "" && |c| == 2 && cached.title != "" && !Listed(cached.streamingInfo, c) ==>
        && r.calls == [CacheLookup(movieId, c), ApiSearch(movieId, c)]
        && r.response == (if search.SearchFailed? then NotFound
                          else Found(search.movie.(streamingInfo := FilterCountry(search.movie.streamingInfo, c))))
    ensures r.response.Found? ==>
      && (forall k :: k in r.response.movie.streamingInfo ==> SameCountry(k, CountryOf(countryQuery)))
      && (r.response.movie.title == cached.title || (search.Searched? && r.response.movie.title == search.movie.title))
  {
    if movieId == "" then Served(BadRequest("Movie ID is required"), [])
    else
      var country := CountryOf(countryQuery);
      if |country| != 2 then Served(BadRequest("Country code must be 2 characters long"), [])
      else
        var calls := [CacheLookup(movieId, country)];
        if |cached.title| == 0 && search.SearchFailed? then
          Served(NotFound, calls + [ApiSearch(movieId, country)])
        else
          var calls := if |cached.title| == 0 then calls + [ApiSearch(movieId, country)] else calls;
          var movie := if |cached.title| == 0 then search.movie else cached;
          if !Listed(movie.streamingInfo, country) && search.SearchFailed? then
            Served(NotFound, calls + [ApiSearch(movieId, country)])
          else
            var calls := if !Listed(movie.streamingInfo, country) then calls + [ApiSearch(movieId, country)] else calls;
            var movie := if !Listed(movie.streamingInfo, country) then search.movie else movie;
            Served(Found(movie.(streamingInfo := FilterCountry(movie.streamingInfo, country))), calls)
  }

  /** A miss answered by the search, once the search's movie is in the
      cache, is answered again identically from the cache alone. */
  lemma CachedSearchServesAgain(movieId: string, countryQuery: string, missed: Movie, search: Search, later: Search)
    requires movieId != "" && |CountryOf(countryQuery)| == 2
    requires missed.title == "" && search.Searched? && search.movie.title != ""
    requires Listed(search.movie.streamingInfo, CountryOf(countryQuery))
    ensures var again := ServeInspect(movieId, countryQuery, search.movie, later);
      && again.response == ServeInspect(movieId, countryQuery, missed, search).response
      && again.calls == [CacheLookup(movieId, CountryOf(countryQuery))]
  {
  }
}

=== FILE: notify.dfy ===
/**
 Notification dispatch of the FCM handler. Calls into the messaging
 client are not performed here: each dispatch returns the effects it
 would hand to the client, in order, and an empty device token makes
 every dispatch a no-op.
 */
module Notify {

  /** The notification texts, kept abstract beyond the choice of branch. */
  datatype Message =
    | RequestReceived(sender: string)
    | RequestAccepted(accepter: string, profile: string)
    | Rated(rater: string, title: string)
    | RatedMore(rater: string, title: string)

  /** One call into the messaging client. */
  datatype Effect =
    | Subscribe(token: string, topic: string)
    | Unsubscribe(token: string, topic: string)
    | Push(token: string, message: Message)
    | Broadcast(topic: string, message: Message)

  /** Subscribes the device `token` to `topic`; nothing for an empty token. */
  function SubscribeToUser(token: string, topic: string): (r: seq<Effect>)
    ensures |r| <= 1
    ensures r == [] <==> token == ""
    ensures forall e :: e in r ==> e.Subscribe? && e.token == token && e.topic == topic
  {
    if token == "" then [] else [Subscribe(token, topic)]
  }

  /** Unsubscribes the device `token` from `topic`; nothing for an empty token. */
  function UnsubscribeFromUser(token: string, topic: string): (r: seq<Effect>)
    ensures |r| <= 1
    ensures r == [] <==> token == ""
    ensures forall e :: e in r ==> e.Unsubscribe? && e.token == token && e.topic == topic
  {
    if token == "" then [] else [Unsubscribe(token, topic)]
  }

  /** Pushes `message` to the device `token`; nothing for an empty token. */
  function SendNotification(token: string, message: Message): (r: seq<Effect>)
    ensures |r| <= 1
    ensures r == [] <==> token == ""
    ensures forall e :: e in r ==> e.Push? && e.token == token && e.message == message
  {
    if token == "" then [] else [Push(token, message)]
  }
}

=== FILE: ratings.dfy ===
/**
 Rating-notification coalescing of the FCM handler, as the code is
 written. Under its mutex the handler is a sequential state machine: the
 per-user map of the last rating event and the one-shot timers it has
 armed. The clock is an integer number of seconds; a timer firing is an
 explicit step that carries what the callback reads from outside (the
 rater's user document and the cached movie title).
 */
module Ratings {
  import opened Helpers
  import opened Notify

  /** Five minutes, in seconds. */
  const Window: int := 300

  datatype RatingEvent = RatingEvent(userId: string, movieId: string, dateTime: int, multiple: bool)

  /** A timer armed by `Handle`: when it fires it compares the stored
      entry with `snapshot`. */
  datatype Timer = Timer(fireAt: int, snapshot: RatingEvent)

  /** The handler's `userRatings` map (nil until first used) and the
      timers that have been armed and have not fired yet, in arming order. */
  datatype Scheduler = Scheduler(userRatings: Nilable<map<string, RatingEvent>>, timers: seq<Timer>)

  /** The rater's user document as the callback reads it: `friends` is
      nil when the field is absent or the lookup failed (which yields the
      zero user). */
  datatype Profile = Profile(name: string, friends: Nilable<seq<string>>)

  /** What a fired timer leaves behind and what it sent. */
  datatype Fired = Fired(scheduler: Scheduler, sent: seq<Effect>)

  const Idle := Scheduler(Nil, [])

  /** A nil map reads as the empty map. */
  function Entries(m: Nilable<map<string, RatingEvent>>): map<string, RatingEvent> {
    if m.Nil? then map[] else m.value
  }

  /** The event the rating endpoint hands over: `Multiple` is the zero value. */
  function NewEvent(userId: string, movieId: string, now: int): (e: RatingEvent)
    ensures !e.multiple
    ensures e.userId == userId && e.movieId == movieId && e.dateTime == now
  {
    RatingEvent(userId, movieId, now, false)
  }

  /** The stored entry for the rater is younger than the window at `now`. */
  predicate Coalesces(m: map<string, RatingEvent>, now: int, rating: RatingEvent) {
    rating.userId in m && now - m[rating.userId].dateTime < Window
  }

  /** `handleRatingEvent` at time `now`. Inside the window the flag is set
      on a local copy only, so the map is left as it was; otherwise the
      event becomes the user's entry and one timer is armed. */
  function Handle(s: Scheduler, now: int, rating: RatingEvent): (r: Scheduler)
    ensures r.userRatings.Val?
    ensures Coalesces(Entries(s.userRatings), now, rating) ==>
      Entries(r.userRatings) == Entries(s.userRatings) && r.timers == s.timers
    ensures !Coalesces(Entries(s.userRatings), now, rating) ==>
      && rating.userId in Entries(r.userRatings)
      && Entries(r.userRatings)[rating.userId] == rating
      && Entries(r.userRatings).Keys == Entries(s.userRatings).Keys + {rating.userId}
      && (forall u :: u in Entries(s.userRatings) && u != rating.userId ==>
            Entries(r.userRatings)[u] == Entries(s.userRatings)[u])
      && |r.timers| == |s.timers| + 1
      && r.timers[..|s.timers|] == s.timers
      && r.timers[|s.timers|] == Timer(now + Window, rating)
  {
    var m := Entries(s.userRatings);
    if rating.userId in m && now - m[rating.userId].dateTime < Window then
      Scheduler(Val(m), s.timers)
    else
      Scheduler(Val(m[rating.userId := rating]), s.timers + [Timer(now + Window, rating)])
  }

  /** The title shown for a rated movie: the cached title, or the movie id
      when the cache had none. */
  function TitleFor(rating: RatingEvent, cachedTitle: string): (t: string)
    ensures t == rating.movieId <==> cachedTitle == "" || cachedTitle == rating.movieId
    ensures cachedTitle != "" ==> t == cachedTitle
  {
    if cachedTitle != "" then cachedTitle else rating.movieId
  }

  /** `sendNotificationToFriends`: nothing when the rater's friends array
      is nil, otherwise one message on the rater's topic, with the "and
      more" text exactly when the event is flagged multiple. */
  function SendToFriends(rating: RatingEvent, profile: Profile, cachedTitle: string): (r: seq<Effect>)
    ensures profile.friends.Nil? <==> r == []
    ensures |r| <= 1
    ensures forall e :: e in r ==>
      && e.Broadcast? && e.topic == rating.userId
      && (e.message.Rated? || e.message.RatedMore?)
      && e.message.rater == profile.name
      && e.message.title == TitleFor(rating, cachedTitle)
      && (e.message.RatedMore? <==> rating.multiple)
      && (e.message.Rated? <==> !rating.multiple)
  {
    if profile.friends.Nil? then []
    else
      var title := TitleFor(rating, cachedTitle);
      var content := if rating.multiple then RatedMore(profile.name, title) else Rated(profile.name, title);
      [Broadcast(rating.userId, content)]
  }

  /** The stored entry of the rater is exactly the timer's snapshot. */
  predicate Current(m: map<string, RatingEvent>, snapshot: RatingEvent) {
    snapshot.userId in m && m[snapshot.userId] == snapshot
  }

  /** The pending timers without the one at `i`. */
  function Without(timers: seq<Timer>, i: nat): (r: seq<Timer>)
    requires i < |timers|
    ensures |r| == |timers| - 1
    ensures forall j :: 0 <= j < i ==> r[j] == timers[j]
    ensures forall j :: i < j < |timers| ==> r[j - 1] == timers[j]
  {
    timers[..i] + timers[i + 1..]
  }

  /** The callback of pending timer `i`, run at `now`, once the timer is
      due: if the stored entry still equals its snapshot, the notification
      goes out and the entry is deleted; otherwise nothing happens. Either
      way the timer is spent. */
  function Fire(s: Scheduler, i: nat, now: int, profile: Profile, cachedTitle: string): (r: Fired)
    requires i < |s.timers| && s.timers[i].fireAt <= now
    ensures r.scheduler.timers == Without(s.timers, i)
    ensures var snap := s.timers[i].snapshot;
      Current(Entries(s.userRatings), snap) ==>
        && Entries(r.scheduler.userRatings) == Entries(s.userRatings) - {snap.userId}
        && r.sent == SendToFriends(snap, profile, cachedTitle)
    ensures !Current(Entries(s.userRatings), s.timers[i].snapshot) ==>
      r == Fired(Scheduler(s.userRatings, Without(s.timers, i)), [])
  {
    var snap := s.timers[i].snapshot;
    var m := Entries(s.userRatings);
    var rest := Without(s.timers, i);
    if snap.userId in m && m[snap.userId] == snap then
      Fired(Scheduler(Val(m - {snap.userId}), rest), SendToFriends(snap, profile, cachedTitle))
    else
      Fired(Scheduler(s.userRatings, rest), [])
  }

  // ---------------------------------------------------------------------
  // Invariants

  /** Every entry is stored under its own rater's id. */
  ghost predicate Keyed(s: Scheduler) {
    forall u :: u in Entries(s.userRatings) ==> Entries(s.userRatings)[u].userId == u
  }

  /** No stored entry carries the `Multiple` flag. */
  ghost predicate Unflagged(s: Scheduler) {
    forall u :: u in Entries(s.userRatings) ==> !Entries(s.userRatings)[u].multiple
  }

  /** Every stored entry is the snapshot of some pending timer, so its
      notification is still due: no entry is stranded. */
  ghost predicate Armed(s: Scheduler) {
    forall u :: u in Entries(s.userRatings) ==>
      exists j :: 0 <= j < |s.timers| && s.timers[j].snapshot == Entries(s.userRatings)[u]
  }

  ghost predicate Good(s: Scheduler) {
    Keyed(s) && Unflagged(s) && Armed(s)
  }

  lemma IdleIsGood()
    ensures Good(Idle)
  {
  }

  /** Handling an event as the endpoint creates it keeps the invariants. */
  lemma HandleKeepsGood(s: Scheduler, now: int, rating: RatingEvent)
    requires Good(s) && !rating.multiple
    ensures Good(Handle(s, now, rating))
  {
    var r := Handle(s, now, rating);
    var m := Entries(s.userRatings);
    if !Coalesces(m, now, rating) {
      var m' := Entries(r.userRatings);
      forall u | u in m' ensures exists j :: 0 <= j < |r.timers| && r.timers[j].snapshot == m'[u] {
        if u == rating.userId {
          assert r.timers[|s.timers|].snapshot == m'[u];
        } else {
          var j :| 0 <= j < |s.timers| && s.timers[j].snapshot == m[u];
          assert r.timers[j] == r.timers[..|s.timers|][j];
        }
      }
    }
  }

  /** Firing any pending timer keeps the invariants. */
  lemma FireKeepsGood(s: Scheduler, i: nat, now: int, profile: Profile, cachedTitle: string)
    requires Good(s) && i < |s.timers| && s.timers[i].fireAt <= now
    ensures Good(Fire(s, i, now, profile, cachedTitle).scheduler)
  {
    var r := Fire(s, i, now, profile, cachedTitle).scheduler;
    var m := Entries(s.userRatings);
    var m' := Entries(r.userRatings);
    var snap := s.timers[i].snapshot;
    forall u | u in m' ensures exists j :: 0 <= j < |r.timers| && r.timers[j].snapshot == m'[u] {
      assert u in m && m'[u] == m[u];
      var j :| 0 <= j < |s.timers| && s.timers[j].snapshot == m[u];
      // were it timer `i`, its snapshot would be the stored entry of its
      // own rater `u`, which the firing deleted
      assert j != i;
      if j < i {
        assert r.timers[j] == s.timers[j];
      } else {
        assert r.timers[j - 1] == s.timers[j];
      }
    }
  }

  /** With the invariant, no notification ever says "and more": the flag
      set in the coalescing branch never reaches the map. */
  lemma NeverAndMore(s: Scheduler, i: nat, now: int, profile: Profile, cachedTitle: string)
    requires Good(s) && i < |s.timers| && s.timers[i].fireAt <= now
    ensures forall e :: e in Fire(s, i, now, profile, cachedTitle).sent ==> e.message.Rated?
  {
  }

  /** A nil map behaves exactly like an empty one. */
  lemma NilMapIsEmpty(timers: seq<Timer>, now: int, rating: RatingEvent)
    ensures Handle(Scheduler(Nil, timers), now, rating) == Handle(Scheduler(Val(map[]), timers), now, rating)
    ensures Handle(Scheduler(Nil, timers), now, rating).timers == timers + [Timer(now + Window, rating)]
  {
  }

  /** A timer that has just sent its notification cannot make another
      timer with the same snapshot send again. */
  lemma FireSendsOnce(s: Scheduler, i: nat, j: nat, at1: int, at2: int, p: Profile, q: Profile, t1: string, t2: string)
    requires i < |s.timers| && s.timers[i].fireAt <= at1
    requires var r := Fire(s, i, at1, p, t1).scheduler;
      j < |r.timers| && r.timers[j].snapshot == s.timers[i].snapshot && r.timers[j].fireAt <= at2
    requires Current(Entries(s.userRatings), s.timers[i].snapshot)
    ensures Fire(Fire(s, i, at1, p, t1).scheduler, j, at2, q, t2).sent == []
  {
  }

  /** A rater's event handled after the previous window's timer has fired
      opens a window of its own: each window sends its own notification,
      for its own event. */
  lemma FarApartTwoNotifications(e1: RatingEvent, e2: RatingEvent, h1: int, f1: int, h2: int, f2: int, p: Profile, title: string)
    requires e1.userId == e2.userId && p.friends.Val?
    requires h1 + Window <= f1 && h2 + Window <= f2
    ensures var s1 := Handle(Idle, h1, e1);
      var r1 := Fire(s1, 0, f1, p, title);
      var s2 := Handle(r1.scheduler, h2, e2);
      && r1.sent == [Broadcast(e1.userId, if e1.multiple then RatedMore(p.name, TitleFor(e1, title)) else Rated(p.name, TitleFor(e1, title)))]
      && s2.timers == [Timer(h2 + Window, e2)]
      && Fire(s2, 0, f2, p, title).sent
           == [Broadcast(e2.userId, if e2.multiple then RatedMore(p.name, TitleFor(e2, title)) else Rated(p.name, TitleFor(e2, title)))]
  {
    var s1 := Handle(Idle, h1, e1);
    assert Entries(s1.userRatings) == map[e1.userId := e1];
    var r1 := Fire(s1, 0, f1, p, title);
    assert Entries(r1.scheduler.userRatings) == map[];
  }

  /** The window is measured from the event's request time but its timer
      runs from the time the event is handled. An event handled late is
      replaced by the rater's next event once that one is a window past
      the first request, even though the first timer is not yet due; the
      first timer then finds a different entry and the first window is
      never announced. */
  lemma BoundaryDrop(e1: RatingEvent, e2: RatingEvent, h1: int, h2: int, at: int, p: Profile, title: string)
    requires e1.userId == e2.userId && e1 != e2
    requires e1.dateTime + Window <= h2 < h1 + Window
    requires h1 + Window <= at
    ensures var s2 := Handle(Handle(Idle, h1, e1), h2, e2);
      && s2.timers == [Timer(h1 + Window, e1), Timer(h2 + Window, e2)]
      && h2 < s2.timers[0].fireAt
      && Fire(s2, 0, at, p, title).sent == []
      && Entries(Fire(s2, 0, at, p, title).scheduler.userRatings) == map[e1.userId := e2]
  {
    var s1 := Handle(Idle, h1, e1);
    assert Entries(s1.userRatings) == map[e1.userId := e1];
    var s2 := Handle(s1, h2, e2);
    assert Entries(s2.userRatings) == map[e1.userId := e2];
  }
}

=== FILE: users.dfy ===
/**
 User records as the friend handler reads them from the `Users`
 collection, and the two Firestore array transforms it writes with.
 */
module Users {
  import opened Helpers

  /** The fields of a user document that the core reads or writes. */
  datatype User = User(
    name: string,
    fcmToken: string,
    friends: seq<string>,
    friendRequests: seq<string>,
    outgoingRequests: seq<string>)

  /** A stored document: either it decodes into a `User` or it does not. */
  datatype Doc = Decoded(user: User) | Undecodable

  /** The `Users` collection, keyed by user id. */
  type Store = map<string, Doc>

  /** The three string-id arrays of a user record. */
  datatype Field = Friends | FriendRequests | OutgoingRequests

  /** One element of a single-document update. */
  datatype Transform =
    | ArrayUnion(field: Field, value: string)
    | ArrayRemove(field: Field, value: string)

  function Get(u: User, f: Field): seq<string> {
    match f
    case Friends => u.friends
    case FriendRequests => u.friendRequests
    case OutgoingRequests => u.outgoingRequests
  }

  function Put(u: User, f: Field, xs: seq<string>): (r: User)
    ensures Get(r, f) == xs
    ensures forall g :: g != f ==> Get(r, g) == Get(u, g)
    ensures r.name == u.name && r.fcmToken == u.fcmToken
  {
    match f
    case Friends => u.(friends := xs)
    case FriendRequests => u.(friendRequests := xs)
    case OutgoingRequests => u.(outgoingRequests := xs)
  }

  /** `ArrayUnion` of one value: appended only when absent. */
  function Union(xs: seq<string>, v: string): (r: seq<string>)
    ensures forall c :: ArrayContains(r, c) <==> ArrayContains(xs, c) || c == v
    ensures ArrayContains(xs, v) ==> r == xs
    ensures |r| <= |xs| + 1
  {
    if ArrayContains(xs, v) then xs else xs + [v]
  }

  /** `ArrayRemove` of one value: every occurrence goes, order is kept. */
  function Remove(xs: seq<string>, v: string): (r: seq<string>)
    ensures forall c :: ArrayContains(r, c) <==> ArrayContains(xs, c) && c != v
    ensures !ArrayContains(xs, v) ==> r == xs
    ensures |r| <= |xs|
  {
    if |xs| == 0 then []
    else if xs[0] == v then Remove(xs[1..], v)
    else
      assert xs == [xs[0]] + xs[1..];
      [xs[0]] + Remove(xs[1..], v)
  }

  /** `ArrayRemove` deletes every copy of the value and keeps the
      multiplicity of every other element. */
  lemma {:induction false} RemoveCounts(xs: seq<string>, v: string)
    ensures multiset(Remove(xs, v)) == multiset(xs)[v := 0]
  {
    if |xs| > 0 {
      RemoveCounts(xs[1..], v);
      assert xs == [xs[0]] + xs[1..];
    }
  }

  /** The set meaning of a transform: whether `b` is in field `f` after
      it, given whether it was before. */
  function Member(t: Transform, f: Field, b: string, before: bool): bool {
    if t.field != f || t.value != b then before
    else t.ArrayUnion?
  }

  /** `Member` folded over a list of transforms, first to last. */
  function MemberAfter(ts: seq<Transform>, f: Field, b: string, before: bool): bool
    decreases |ts|
  {
    if |ts| == 0 then before
    else MemberAfter(ts[1..], f, b, Member(ts[0], f, b, before))
  }

  function Apply(u: User, t: Transform): (r: User)
    ensures forall f, b :: ArrayContains(Get(r, f), b) == Member(t, f, b, ArrayContains(Get(u, f), b))
    ensures forall f :: f != t.field ==> Get(r, f) == Get(u, f)
    ensures r.name == u.name && r.fcmToken == u.fcmToken
  {
    match t
    case ArrayUnion(f, v) => Put(u, f, Union(Get(u, f), v))
    case ArrayRemove(f, v) => Put(u, f, Remove(Get(u, f), v))
  }

  /** The fields an update writes to. */
  function FieldsOf(ts: seq<Transform>): set<Field>
    decreases |ts|
  {
    if |ts| == 0 then {} else {ts[0].field} + FieldsOf(ts[1..])
  }

  /** All transforms of one update, applied in order to one record. */
  function ApplyAll(u: User, ts: seq<Transform>): (r: User)
    ensures forall f, b :: ArrayContains(Get(r, f), b) == MemberAfter(ts, f, b, ArrayContains(Get(u, f), b))
    ensures forall f :: f !in FieldsOf(ts) ==> Get(r, f) == Get(u, f)
    ensures r.name == u.name && r.fcmToken == u.fcmToken
    decreases |ts|
  {
    if |ts| == 0 then u else ApplyAll(Apply(u, ts[0]), ts[1..])
  }

  /** `MemberAfter` of a two-transform update, spelled out. */
  lemma {:induction false} MemberAfterPair(t1: Transform, t2: Transform, f: Field, b: string, before: bool)
    ensures MemberAfter([t1], f, b, before) == Member(t1, f, b, before)
    ensures MemberAfter([t1, t2], f, b, before) == Member(t2, f, b, Member(t1, f, b, before))
    ensures FieldsOf([t1]) == {t1.field}
    ensures FieldsOf([t1, t2]) == {t1.field, t2.field}
  {
    assert [t1][1..] == [] && [t2][1..] == [];
    assert [t1, t2][1..] == [t2];
    var mid := Member(t1, f, b, before);
    assert MemberAfter([t1, t2], f, b, before) == MemberAfter([t2], f, b, mid);
    assert MemberAfter([t2], f, b, mid) == MemberAfter([], f, b, Member(t2, f, b, mid));
    assert FieldsOf([t1, t2]) == {t1.field} + FieldsOf([t2]);
    assert FieldsOf([t2]) == {t2.field} + FieldsOf([]);
  }

  /** The document `id` exists and decodes. */
  predicate Live(s: Store, id: string) {
    id in s && s[id].Decoded?
  }

  /** `b` is listed in field `f` of the live record `a`. */
  predicate Rel(s: Store, a: string, f: Field, b: string) {
    Live(s, a) && ArrayContains(Get(s[a].user, f), b)
  }

  /** One Firestore `Update` of document `id`: atomic for that document,
      so a failed write changes nothing. */
  function Update(s: Store, id: string, ts: seq<Transform>, fails: bool): (r: Store)
    requires Live(s, id)
    ensures r.Keys == s.Keys
    ensures forall k :: Live(r, k) <==> Live(s, k)
    ensures forall k :: k in s && k != id ==> r[k] == s[k]
    ensures fails ==> r == s
    ensures Live(r, id)
    ensures r[id].user.name == s[id].user.name && r[id].user.fcmToken == s[id].user.fcmToken
    ensures forall f :: f !in FieldsOf(ts) ==> Get(r[id].user, f) == Get(s[id].user, f)
    ensures !fails ==>
      forall a, f, b :: Rel(r, a, f, b) == (if a == id then MemberAfter(ts, f, b, Rel(s, a, f, b)) else Rel(s, a, f, b))
  {
    if fails then s else s[id := Decoded(ApplyAll(s[id].user, ts))]
  }
}
